=== FILE: README.md ===
# piiro EventEmitter — a Dafny model of the listener registry

This project models the core of `piiro`, a small in-process event emitter
written in Python:

- `BaseEventEmitter` keeps a registry (`self._events`, a `defaultdict(dict)`).
  The registry maps each event name to a dictionary from registration key to
  invocable. Python dictionaries keep insertion order, so the dictionary's
  order is the dispatch order.
- `EventEmitter` is the public facade: `on`, `once`, `emit`,
  `remove_listener` and `remove_listeners`.

The model is functional. Every operation takes the registry as a value and
returns a new one. Dispatch returns a trace of the calls it makes.

Modules, one per file:

- `Listeners` (`listeners.dfy`) models one event's dictionary. It is a
  sequence of `Listener(key, invocable)` records with distinct keys. `Put` is
  `d[k] = v` and `Pop` is `d.pop(k)`. `Get` is the dictionary view that the
  map-update laws are stated against.
- `Invocation` (`invocation.dfy`) models `_emit_run`. A Python callable is
  abstracted as a `Behaviour` with two parts. `accepts` says whether its
  signature binds the given arguments; a call that does not bind raises
  TypeError before the body runs. `body` says how the body ends.
  `EmitRun` records each call it makes as an `Attempt`.
- `BaseEmitter` (`base_emitter.dfy`) holds the registry map and its
  operations: `AddHandler`, `RemoveListener`, `RemoveListeners`,
  `ListenersCount` and dispatch (`Dispatch`, `CallHandlers`).
  `Valid` is the invariant that every event's keys are distinct.
- `EventEmitter` (`event_emitter.dfy`) is the facade. The stored invocable is
  a `Handler`: `Plain(f)` for `on`, or `OnceWrapper(f)` for the wrapper that
  `once` builds around `f`. `WellFormed` says that every record is stored
  under the function its invocable runs.

How the code behaves at the edges, as the model has it:

- Listener faults. `_call_handlers` wraps each listener's run in
  `except Exception` and hands the exception to `_handle_error`, which does
  nothing. So dispatch goes on to the next listener
  (`piiro/_base.py:22-26`, `80-81`). An exception outside `Exception`
  (`SystemExit`, `KeyboardInterrupt`, `GeneratorExit`) is not caught. It
  leaves the loop and `emit` with no return value. The model writes these as
  `Raised(Interrupt)`, and dispatch over them ends with `Propagates`.
- Re-entering the emitter. Dispatch runs every listener while holding
  `self.lock`, a non-reentrant `threading.Lock` (`piiro/_base.py:15`, `20`).
  A listener that calls back into `emit`, `remove_listener`, `on`, `once`
  or `remove_listeners` waits for that lock forever. The model writes such a
  run's outcome as `Blocked`, and dispatch then ends with `Hangs`.
- The `once` wrapper. The wrapper `f2` runs `f` and then calls
  `remove_listener` (`piiro/_base.py:143-145`). So, during dispatch, it
  blocks whenever `f` returns, and an emit that reaches it never completes.
  `OnceWrapperBody`, `OnceWrapperRun` and `OnceEmitHangs` state this.
- Removing a missing key. `dict.pop` raises KeyError
  (`piiro/_base.py:35`). The model returns `Err(KeyNotFound)`.
- The arity fallback. `_emit_run` retries with no arguments on any
  TypeError, including one raised by the listener's own body
  (`piiro/_base.py:55-58`).

## Model

| member | source | states |
|---|---|---|
| `Listeners.Put` | piiro/_base.py:70-71 | Dictionary assignment. A new key is appended at the end. An existing key keeps its position and only its invocable changes, and every other record stays where it was. Distinct keys stay distinct. |
| `Listeners.PutGet` | piiro/_base.py:71 | Looked up through `Get`, assignment is a map update: the assigned key reads back the new invocable and every other key reads what it read before. |
| `Listeners.PutTwiceLastWins` | piiro/_base.py:71 | Registering the same key twice equals registering it once with the second invocable: the last registration wins and no duplicate appears. |
| `Listeners.Pop` | piiro/_base.py:33-35 | `dict.pop` fails exactly when the key is absent. Otherwise it returns the stored invocable and removes exactly that record, keeping the others in their order. The key is gone afterwards and the remaining keys stay distinct. |
| `Listeners.PopGet` | piiro/_base.py:35 | After a pop, the popped key reads as absent and every other key reads as before. The returned invocable is the one stored under the key. |
| `Listeners.PutNewThenPop` | piiro/_base.py:33-71 | Inserting a new key and then popping it returns the inserted invocable and gives back the original collection, order included. |
| `Listeners.PopThenPutMovesToEnd` | piiro/_base.py:70-71 | A key that is popped and then registered again goes to the end of the dispatch order, as a Python dictionary puts it. |
| `Listeners.CountIsDistinctKeys` | piiro/_base.py:73-75 | When keys are distinct, the number of records equals the number of distinct keys. |
| `Invocation.Call` | piiro/_base.py:56-58 | `f(*args, **kwargs)`: a call whose arguments do not bind the signature raises TypeError without running the body. A call that binds ends as the body does. |
| `Invocation.EmitRun` | piiro/_base.py:43-58 | The first call always uses the emitted arguments. A second call, with no arguments, is made exactly when the first raised TypeError, whether the signature did not bind or the body raised it. A listener that binds and does not raise TypeError runs once. The retry's outcome, error included, is what escapes. A run blocks only if a body that ran blocked. |
| `Invocation.ArityFallback` | piiro/_base.py:44-58 | A listener that binds no arguments, emitted with arguments, is called twice: first with the arguments, then with none. Its body runs on the empty argument list. |
| `Invocation.EmitRunReturns` | piiro/_base.py:55-58 | A run returns exactly when the call with the arguments returns, or that call raises TypeError and the call without arguments returns. |
| `BaseEmitter.Empty` | piiro/_base.py:13-15 | A new emitter has no listeners for any event and satisfies the distinct-keys invariant. |
| `BaseEmitter.Lookup` | piiro/_base.py:14-21 | `self._events[event]` on the `defaultdict(dict)` of line 14, read the same way at lines 31, 35, 71 and 74. An event never registered reads as an empty collection. Under the invariant, the collection read has distinct keys. |
| `BaseEmitter.ListenersCount` | piiro/_base.py:73-75 | The count is the number of distinct keys registered for the event. It is 0 for an event that was never registered. |
| `BaseEmitter.AddHandler` | piiro/_base.py:60-71 | A new key is appended and the count rises by one. An existing key keeps its place, gets the new invocable, and the count stays. Other keys and other events are unchanged, and the distinct-keys invariant is preserved. |
| `BaseEmitter.RemoveListener` | piiro/_base.py:33-35 | Fails with KeyError exactly when the key is not registered for the event. Otherwise it removes exactly that record and keeps the rest in order. The count drops by one, other events are unchanged, and the invariant is preserved. |
| `BaseEmitter.RemoveListeners` | piiro/_base.py:29-31 | Never fails, even for an unregistered event. Afterwards the event has no listeners and every other event is unchanged. |
| `BaseEmitter.Dispatch` | piiro/_base.py:18-27 | Dispatch never runs more listeners than are stored, and over an empty collection it runs none and returns false. |
| `BaseEmitter.DispatchStep` | piiro/_base.py:21-26 | One iteration of the loop: the first listener's run, then either the end of the loop, when that run stops it, or the rest of the collection, whose result decides the outcome. |
| `BaseEmitter.DispatchRuns` | piiro/_base.py:21-26 | The listeners reached are a prefix of the collection, each run once through `_emit_run` in insertion order. Every run but the last let the loop continue. |
| `BaseEmitter.DispatchReturns` | piiro/_base.py:19-27 | The loop returns exactly when no listener's run raises a non-`Exception` or blocks, whatever `Exception`s they raise. It then ran every listener and returns true exactly when there was one. |
| `BaseEmitter.DispatchStops` | piiro/_base.py:20-24 | When the loop does not return, its last run stopped it: a blocked run makes it hang, an uncaught exception propagates out of it. |
| `BaseEmitter.DispatchStopsAtLast` | piiro/_base.py:21-26 | A listener that stops the loop, stored after listeners that all let it go on, is reached: every listener runs and the loop ends as that last run says. |
| `BaseEmitter.DispatchTrace` | piiro/_base.py:21-26 | In the call trace, the first calls are exactly the invocables reached, in insertion order, each with the emitted arguments. Every other call is a retry with no arguments. |
| `BaseEmitter.DispatchCallsStored` | piiro/_base.py:21-23 | Every call dispatch makes, first call or retry, is to an invocable stored in the collection. |
| `BaseEmitter.DispatchReachesLast` | piiro/_base.py:21-26 | A listener stored after listeners that all let the loop go on is reached, whatever its own run does, and makes the last run. |
| `BaseEmitter.CallHandlers` | piiro/_base.py:18-27 | For an unknown event it returns false and calls nothing. It returns exactly when no listener's run stops the loop, and then returns true exactly when the event had a listener and has called every invocable first in insertion order. Otherwise the first calls are a prefix of the invocables. |
| `EventEmitter.New` | piiro/_base.py:127-128 | A new emitter is well formed and counts zero listeners for every event. |
| `EventEmitter.On` | piiro/_base.py:130-138 | Registers `f` under key `f` with `f` itself as the invocable. A new `f` is appended to the key order, and a known `f` keeps its position. Other events are unchanged. |
| `EventEmitter.Once` | piiro/_base.py:140-153 | Registers the wrapper under the original key `f`, so `f` is the identity that removes it. Key order and other events behave as for `on`. |
| `EventEmitter.OnceWrapperBody` | piiro/_base.py:143-145 | The wrapper never returns. If `f`'s run does not return, the wrapper ends as that run did. If it returns, the wrapper's `remove_listener` call waits on the lock dispatch holds, so the wrapper is `Blocked`. |
| `EventEmitter.OnceWrapperRun` | piiro/_base.py:143-145 | Called by dispatch, the wrapper's run never returns. It blocks if `f` returns and ends as `f`'s run ended otherwise. A TypeError from `f` makes dispatch call the wrapper again with no arguments, which runs `f` once more. |
| `EventEmitter.OnceEmitHangs` | piiro/_base.py:18-27 | An emit that reaches a new `once` listener whose function returns runs every listener up to it and then never completes. |
| `EventEmitter.PlainRunsAsItsFunction` | piiro/_base.py:130-134 | An `on` listener runs as its function does: the same calls with the same arguments, and the same outcome. |
| `EventEmitter.Emit` | piiro/_base.py:155-157 | For an unknown event it returns false and calls nothing. It returns exactly when no stored invocable's run stops dispatch, and then returns true exactly when the event had a listener. The first calls follow the event's invocables in order. |
| `EventEmitter.RemoveListener` | piiro/_base.py:169-170 | Fails exactly when `f` is not registered for the event. Otherwise `f` is gone, the count drops by one, well-formedness holds and other events are unchanged. |
| `EventEmitter.RemoveListeners` | piiro/_base.py:166-167 | Afterwards the event has zero listeners. Other events are unchanged and well-formedness holds. |
| `EventEmitter.OnThenEmit` | piiro/_base.py:155-157 | A listener registered with `on` on an event with no listeners is run exactly once by the next emit, with its function's outcome. Unless that run stops dispatch, the emit returns true. |
| `EventEmitter.OnTwiceAppends` | piiro/_base.py:130-138 | Two new listeners registered with `on` one after the other are appended after the existing ones, in that order. |
| `EventEmitter.EmitInRegistrationOrder` | piiro/_base.py:18-27 | Two new listeners registered one after the other, on an event with any existing listeners, are called first after those listeners, in registration order, as far as dispatch gets. |
| `EventEmitter.ZeroParameterListener` | piiro/_base.py:107-121 | A listener without parameters, registered with `on` after the event's other listeners and emitted with arguments, is reached when those listeners let dispatch go on. Its run is the call with the arguments and then the call without them, and its body's no-argument outcome ends the run. On an event with no other listeners these two calls are the whole trace. |
| `EventEmitter.OnThenRemoveListener` | piiro/_base.py:169-170 | Registering a new listener and then removing it by the same identity succeeds and restores the event's collection. |
| `EventEmitter.EmitCallsStored` | piiro/_base.py:21-23 | Every call an emit makes, first call or retry, is to an invocable stored for the event. |
| `EventEmitter.RemovedListenerIsNotRun` | piiro/_base.py:169-170 | After a successful `remove_listener(event, f)`, the next emit of that event calls neither `f` nor a `once` wrapper of `f`, neither as a first call nor as a no-argument retry. |

## Left out

- Threading. The `Lock` gives mutual exclusion between threads, which a sequential model does not have. Its effect within one thread, a listener waiting forever on the lock that dispatch holds, is modelled as the `Blocked` outcome. Which listener re-enters the emitter is part of its opaque `Behaviour`; the `once` wrapper is the one the code itself builds.
- The self-removal inside the `once` wrapper (`piiro/_base.py:145`) never completes during dispatch, so the model does not continue past it. Had the lock allowed it, the call would pop the key `f2` while the record is stored under `f`. That `pop` raises KeyError before the dictionary changes, and `_call_handlers` catches it as an `Exception` (`piiro/_base.py:24`), so the `once` listener would never be removed and would fire on every emit. The model does not claim that a `once` listener fires at most once. Each `once` call builds a fresh closure; the model writes every wrapper of `f` as the same value `OnceWrapper(f)`.
- Python callables, `*args`/`**kwargs` binding and where a TypeError comes from. These are abstracted by `Behaviour`, which is opaque. A listener's side effects other than blocking, and any state it keeps between calls, are not modelled. Exceptions other than TypeError are told apart only by whether `except Exception` catches them.
- The decorator form of `on` and `once`, which returns the inner `_wrapper` when `f` is omitted (`piiro/_base.py:135-138`, `150-153`). It only changes the calling style.
- `EventEmitter.listeners_count` (`piiro/_base.py:159-160`). It drops the result of `_listeners_count` and returns `None`. The count is modelled by `BaseEmitter.ListenersCount`.
- The `get_events` property. Also the defaultdict's habit of creating an empty entry when an unknown event is read. `Lookup` returns an empty collection without changing the registry, and no modelled operation can tell the two apart.
- The empty stubs `_subscribe`, `_unsubscribe` and `_handle_potential_error`. `_handle_error` is a no-op. It is represented only by dispatch continuing past a run whose outcome is a caught `Raised`.
- A failed removal: on a missing key of an event that was never registered, Python's defaultdict has already created an empty entry for the event before `pop` raises. The model returns only `Err(KeyNotFound)` and leaves the registry as it was, which reads the same through `Lookup`.
- Events and listener identities are taken to be hashable, and `emit`'s keyword arguments never name `event` or `self`. Otherwise the code raises TypeError before the registry is touched: an unhashable event makes every `self._events[event]` read raise (`piiro/_base.py:21`, `31`, `35`, `71`, `74`), and an unhashable listener makes `_add_handler` and `_remove_listener` raise (`piiro/_base.py:71`, `35`). `emit(event, event=...)` fails to bind `emit`'s own signature (`piiro/_base.py:155`). The model's `Emit`, `On`, `Once`, `RemoveListener` and `RemoveListeners` are total on their inputs instead, and `RemoveListener`'s failure means only KeyError.
- `piiro/usage/usage.py`, a demonstration script.

=== FILE: base_emitter.dfy ===
/** `BaseEventEmitter`: the registry from event name to its insertion-ordered
    listener collection, the operations that change it, and dispatch. */
module BaseEmitter {
  import opened Listeners
  import opened Invocation

  type Entries<K, I> = seq<Listener<K, I>>

  /** `self._events`, a `defaultdict(dict)`. */
  type Registry<E, K, I> = map<E, Entries<K, I>>

  /** The KeyError `dict.pop` raises for a key that is not registered. */
  datatype RemoveError = KeyNotFound

  datatype Result<T> = Ok(value: T) | Err(error: RemoveError)

  /** Every event's collection has distinct keys, as a dictionary's keys are. */
  ghost predicate Valid<E, K, I>(reg: Registry<E, K, I>) {
    forall e | e in reg :: UniqueKeys(reg[e])
  }

  /** `BaseEventEmitter()`: no event has listeners. */
  function Empty<E(!new), K(==,!new), I>(): (reg: Registry<E, K, I>)
    ensures Valid(reg)
    ensures forall e :: Lookup(reg, e) == []
  {
    map[]
  }

  /** `self._events[event]`: an event that was never registered reads as an
      empty collection. */
  function Lookup<E(!new), K(==,!new), I>(reg: Registry<E, K, I>, e: E): (s: Entries<K, I>)
    ensures e !in reg ==> s == []
    ensures Valid(reg) ==> UniqueKeys(s)
  {
    if e in reg then reg[e] else []
  }

  /** `_listeners_count(event)`: `len` of the event's dictionary. */
  function ListenersCount<E(!new), K(==,!new), I>(reg: Registry<E, K, I>, e: E): (n: nat)
    ensures Valid(reg) ==> n == |KeySet(Lookup(reg, e))|
    ensures e !in reg ==> n == 0
  {
    if e in reg then CountIsDistinctKeys(reg[e]); |reg[e]| else 0
  }

  /** `_add_handler(event, f1, f2)`: `self._events[event][f1] = f2`. */
  function AddHandler<E(!new), K(==,!new), I>(reg: Registry<E, K, I>, e: E, k: K, v: I): (r: Registry<E, K, I>)
    ensures Valid(reg) ==> Valid(r)
    ensures forall e' :: e' != e ==> Lookup(r, e') == Lookup(reg, e')
    // a new key is appended at the end and the count grows by one
    ensures k !in Keys(Lookup(reg, e)) ==>
      Lookup(r, e) == Lookup(reg, e) + [Listener(k, v)] && ListenersCount(r, e) == ListenersCount(reg, e) + 1
    // an existing key keeps its position, only its invocable changes, and the count stays
    ensures k in Keys(Lookup(reg, e)) ==>
      Keys(Lookup(r, e)) == Keys(Lookup(reg, e)) && ListenersCount(r, e) == ListenersCount(reg, e)
    ensures Get(Lookup(r, e), k) == Some(v)
    ensures forall k' :: k' != k ==> Get(Lookup(r, e), k') == Get(Lookup(reg, e), k')
  {
    var r := reg[e := Put(Lookup(reg, e), k, v)];
    forall k' ensures Get(Lookup(r, e), k') == if k' == k then Some(v) else Get(Lookup(reg, e), k') {
      PutGet(Lookup(reg, e), k, v, k');
    }
    r
  }

  /** `_remove_listener(event, listener)`: `self._events[event].pop(listener)`,
      which raises KeyError when the listener is not registered. */
  function RemoveListener<E(!new), K(==,!new), I>(reg: Registry<E, K, I>, e: E, k: K): (r: Result<Registry<E, K, I>>)
    ensures r.Err? <==> k !in Keys(Lookup(reg, e))
    ensures r.Ok? ==> forall e' :: e' != e ==> Lookup(r.value, e') == Lookup(reg, e')
    // exactly the record stored under `k` goes; the others keep their order
    ensures r.Ok? ==> var s := Lookup(reg, e); var i := IndexOf(s, k);
      Lookup(r.value, e) == s[..i] + s[i + 1..]
    ensures r.Ok? && Valid(reg) ==>
      && Valid(r.value)
      && k !in Keys(Lookup(r.value, e))
      && ListenersCount(r.value, e) == ListenersCount(reg, e) - 1
  {
    match Pop(Lookup(reg, e), k)
    case None => Err(KeyNotFound)
    case Some((_, rest)) => Ok(reg[e := rest])
  }

  /** `_remove_listeners(event)`: `self._events[event].clear()`. */
  function RemoveListeners<E(!new), K(==,!new), I>(reg: Registry<E, K, I>, e: E): (r: Registry<E, K, I>)
    ensures Valid(reg) ==> Valid(r)
    ensures Lookup(r, e) == [] && ListenersCount(r, e) == 0
    ensures forall e' :: e' != e ==> Lookup(r, e') == Lookup(reg, e')
  {
    reg[e := []]
  }

  /** How one `_call_handlers` ends: it returns its `handled` flag, an
      `Interrupt` escapes from it, or it hangs on a listener that blocked. */
  datatype Ending = Returns(handled: bool) | Propagates | Hangs

  /** What one `_call_handlers` observably does: the runs of the listeners it
      reached, in order, and how it ended. A run whose outcome is a `Raised`
      `Exception` is the exception handed to `_handle_error`, which ignores it. */
  datatype DispatchResult<I, V> = DispatchResult(runs: seq<RunResult<I, V>>, end: Ending)

  /** The dispatch loop over one event's collection: each stored invocable
      in insertion order through `_emit_run`. An `Exception` a run lets
      escape is handed to `_handle_error` and the loop goes on; a run that
      stops (see `Stops`) ends it. */
  function Dispatch<K, I, V>(b: Behaviour<I, V>, s: Entries<K, I>, args: Args<V>): (r: DispatchResult<I, V>)
    ensures |r.runs| <= |s|
    ensures s == [] ==> r == DispatchResult([], Returns(false))
  {
    if s == [] then DispatchResult([], Returns(false))
    else
      var run := EmitRun(b, s[0].invocable, args);
      if run.outcome == Blocked then DispatchResult([run], Hangs)
      else if run.outcome == Raised(Interrupt) then DispatchResult([run], Propagates)
      else
        var rest := Dispatch(b, s[1..], args);
        DispatchResult([run] + rest.runs, if rest.end.Returns? then Returns(true) else rest.end)
  }

  /** One step of the loop: the first listener's run, then, unless that run
      stops the loop, dispatch over the rest. */
  lemma DispatchStep<K, I, V>(b: Behaviour<I, V>, s: Entries<K, I>, args: Args<V>)
    requires s != []
    ensures var first := EmitRun(b, s[0].invocable, args);
      Stops(first.outcome) ==>
        Dispatch(b, s, args) == DispatchResult([first], if first.outcome == Blocked then Hangs else Propagates)
    ensures var first := EmitRun(b, s[0].invocable, args); var rest := Dispatch(b, s[1..], args);
      !Stops(first.outcome) ==>
        Dispatch(b, s, args) == DispatchResult([first] + rest.runs, if rest.end.Returns? then Returns(true) else rest.end)
  {
  }

  /** The listeners dispatch reaches are a prefix of the collection, each run
      once through `_emit_run`, in insertion order; every run but the last
      lets the loop go on. */
  lemma {:induction false} DispatchRuns<K, I, V>(b: Behaviour<I, V>, s: Entries<K, I>, args: Args<V>)
    ensures var r := Dispatch(b, s, args);
      forall i :: 0 <= i < |r.runs| ==> r.runs[i] == EmitRun(b, s[i].invocable, args)
    ensures var r := Dispatch(b, s, args);
      forall i :: 0 <= i < |r.runs| - 1 ==> !Stops(r.runs[i].outcome)
    decreases |s|, 1
  {
    if s != [] {
      DispatchStep(b, s, args);
      var first := EmitRun(b, s[0].invocable, args);
      if !Stops(first.outcome) {
        DispatchRunsStep(b, s, args);
      }
    }
  }

  lemma {:induction false} DispatchRunsStep<K, I, V>(b: Behaviour<I, V>, s: Entries<K, I>, args: Args<V>)
    requires s != [] && !Stops(EmitRun(b, s[0].invocable, args).outcome)
    ensures var r := Dispatch(b, s, args);
      forall i :: 0 <= i < |r.runs| ==> r.runs[i] == EmitRun(b, s[i].invocable, args)
    ensures var r := Dispatch(b, s, args);
      forall i :: 0 <= i < |r.runs| - 1 ==> !Stops(r.runs[i].outcome)
    decreases |s|, 0
  {
    DispatchStep(b, s, args);
    DispatchRuns(b, s[1..], args);
    var first := EmitRun(b, s[0].invocable, args);
    var rest := Dispatch(b, s[1..], args).runs;
    var runs := Dispatch(b, s, args).runs;
    assert runs == [first] + rest;
    forall i | 0 <= i < |runs| ensures runs[i] == EmitRun(b, s[i].invocable, args) {
      if i > 0 {
        assert runs[i] == rest[i - 1];
        assert s[1..][i - 1] == s[i];
      }
    }
    forall i | 0 <= i < |runs| - 1 ensures !Stops(runs[i].outcome) {
      if i > 0 {
        assert runs[i] == rest[i - 1];
      }
    }
  }

  /** The loop returns exactly when no listener's run stops it; it then ran
      every listener, and reports whether there was any. */
  lemma {:induction false} DispatchReturns<K, I, V>(b: Behaviour<I, V>, s: Entries<K, I>, args: Args<V>)
    ensures Dispatch(b, s, args).end.Returns? <==>
      forall i :: 0 <= i < |s| ==> !Stops(EmitRun(b, s[i].invocable, args).outcome)
    ensures var r := Dispatch(b, s, args);
      r.end.Returns? ==> |r.runs| == |s| && (r.end.handled <==> |s| > 0)
    decreases |s|, 1
  {
    if s != [] {
      DispatchStep(b, s, args);
      var first := EmitRun(b, s[0].invocable, args);
      if !Stops(first.outcome) {
        DispatchReturnsStep(b, s, args);
      }
    }
  }

  lemma {:induction false} DispatchReturnsStep<K, I, V>(b: Behaviour<I, V>, s: Entries<K, I>, args: Args<V>)
    requires s != [] && !Stops(EmitRun(b, s[0].invocable, args).outcome)
    ensures Dispatch(b, s, args).end.Returns? <==>
      forall i :: 0 <= i < |s| ==> !Stops(EmitRun(b, s[i].invocable, args).outcome)
    ensures var r := Dispatch(b, s, args);
      r.end.Returns? ==> |r.runs| == |s| && (r.end.handled <==> |s| > 0)
    decreases |s|, 0
  {
    DispatchStep(b, s, args);
    DispatchReturns(b, s[1..], args);
    var t := s[1..];
    if forall i :: 0 <= i < |t| ==> !Stops(EmitRun(b, t[i].invocable, args).outcome) {
      forall i | 0 <= i < |s| ensures !Stops(EmitRun(b, s[i].invocable, args).outcome) {
        if i > 0 {
          assert s[i] == t[i - 1];
        }
      }
    } else {
      var j :| 0 <= j < |t| && Stops(EmitRun(b, t[j].invocable, args).outcome);
      assert s[j + 1] == t[j];
    }
  }

  /** Otherwise the loop ends at the first run that stops it: the run of a
      listener that blocked makes it hang, an `Interrupt` propagates. */
  lemma {:induction false} DispatchStops<K, I, V>(b: Behaviour<I, V>, s: Entries<K, I>, args: Args<V>)
    ensures var r := Dispatch(b, s, args);
      !r.end.Returns? ==>
        && |r.runs| > 0
        && Stops(r.runs[|r.runs| - 1].outcome)
        && r.end == (if r.runs[|r.runs| - 1].outcome == Blocked then Hangs else Propagates)
  {
    if s != [] {
      DispatchStep(b, s, args);
      var first := EmitRun(b, s[0].invocable, args);
      if !Stops(first.outcome) {
        DispatchStops(b, s[1..], args);
        var rest := Dispatch(b, s[1..], args).runs;
        var runs := Dispatch(b, s, args).runs;
        if rest != [] {
          assert runs[|runs| - 1] == rest[|rest| - 1];
        }
      }
    }
  }

  /** A listener whose run stops the loop, placed after listeners that all
      let it go on, is reached: every listener runs, and the loop hangs or
      propagates as that last run says. */
  lemma {:induction false} DispatchStopsAtLast<K, I, V>(b: Behaviour<I, V>, s: Entries<K, I>, x: Listener<K, I>, args: Args<V>)
    requires forall i :: 0 <= i < |s| ==> !Stops(EmitRun(b, s[i].invocable, args).outcome)
    requires Stops(EmitRun(b, x.invocable, args).outcome)
    ensures |Dispatch(b, s + [x], args).runs| == |s| + 1
    ensures Dispatch(b, s + [x], args).end ==
      if EmitRun(b, x.invocable, args).outcome == Blocked then Hangs else Propagates
  {
    DispatchStep(b, s + [x], args);
    if s == [] {
      assert (s + [x])[0] == x;
    } else {
      assert (s + [x])[0] == s[0];
      assert (s + [x])[1..] == s[1..] + [x];
      assert forall i :: 0 <= i < |s[1..]| ==> s[1..][i] == s[i + 1];
      DispatchStopsAtLast(b, s[1..], x, args);
    }
  }

  /** A listener stored after listeners that all let the loop go on is
      reached, whether or not its own run stops the loop: it makes the last
      run, and that run is its `_emit_run`. */
  lemma DispatchReachesLast<K, I, V>(b: Behaviour<I, V>, s: Entries<K, I>, x: Listener<K, I>, args: Args<V>)
    requires forall i :: 0 <= i < |s| ==> !Stops(EmitRun(b, s[i].invocable, args).outcome)
    ensures |Dispatch(b, s + [x], args).runs| == |s| + 1
    ensures Dispatch(b, s + [x], args).runs[|s|] == EmitRun(b, x.invocable, args)
  {
    var t := s + [x];
    if Stops(EmitRun(b, x.invocable, args).outcome) {
      DispatchStopsAtLast(b, s, x, args);
    } else {
      assert forall i :: 0 <= i < |t| ==> !Stops(EmitRun(b, t[i].invocable, args).outcome) by {
        forall i | 0 <= i < |t| ensures !Stops(EmitRun(b, t[i].invocable, args).outcome) {
          if i < |s| {
            assert t[i] == s[i];
          }
        }
      }
      DispatchReturns(b, t, args);
    }
    DispatchRuns(b, t, args);
    assert t[|s|] == x;
  }

  /** `_call_handlers(event, args, kwargs)`. */
  function CallHandlers<E(!new), K(==,!new), I, V>(b: Behaviour<I, V>, reg: Registry<E, K, I>, e: E, args: Args<V>): (r: DispatchResult<I, V>)
    ensures r.end.Returns? ==> (r.end.handled <==> ListenersCount(reg, e) > 0)
    ensures e !in reg ==> r == DispatchResult([], Returns(false))
    ensures r.end.Returns? <==>
      forall i :: 0 <= i < |Lookup(reg, e)| ==> !Stops(EmitRun(b, Lookup(reg, e)[i].invocable, args).outcome)
    ensures |r.runs| <= |Lookup(reg, e)|
    ensures FirstAttempts(Trace(r.runs)) == Invocables(Lookup(reg, e)[..|r.runs|])
    ensures r.end.Returns? ==> FirstAttempts(Trace(r.runs)) == Invocables(Lookup(reg, e))
  {
    var s := Lookup(reg, e);
    DispatchReturns(b, s, args);
    DispatchTrace(b, s, args);
    assert s[..|s|] == s;
    Dispatch(b, s, args)
  }

  /** Every call the dispatch makes, in the order it makes them. */
  function Trace<I, V>(runs: seq<RunResult<I, V>>): seq<Attempt<I, V>> {
    if runs == [] then [] else runs[0].attempts + Trace(runs[1..])
  }

  /** The invocables of the first (non-retry) calls, in order. */
  function FirstAttempts<I, V>(t: seq<Attempt<I, V>>): seq<I> {
    if t == [] then []
    else if t[0].retry then FirstAttempts(t[1..])
    else [t[0].invocable] + FirstAttempts(t[1..])
  }

  lemma {:induction false} FirstAttemptsAppend<I, V>(t: seq<Attempt<I, V>>, u: seq<Attempt<I, V>>)
    ensures FirstAttempts(t + u) == FirstAttempts(t) + FirstAttempts(u)
  {
    if t == [] {
      assert t + u == u;
    } else {
      assert (t + u)[0] == t[0];
      assert (t + u)[1..] == t[1..] + u;
      FirstAttemptsAppend(t[1..], u);
    }
  }

  /** One run makes one first call, to its own invocable. */
  lemma RunHasOneFirstAttempt<I, V>(b: Behaviour<I, V>, f: I, args: Args<V>)
    ensures FirstAttempts(EmitRun(b, f, args).attempts) == [f]
  {
    var t := EmitRun(b, f, args).attempts;
    if |t| == 2 {
      assert t == [Attempt(f, args, false), Attempt(f, NoArgs(), true)];
      assert t[1..] == [Attempt(f, NoArgs(), true)];
      assert t[1..][1..] == [];
      assert FirstAttempts(t[1..]) == FirstAttempts(t[1..][1..]) == [];
    } else {
      assert t == [Attempt(f, args, false)];
      assert t[1..] == [];
    }
  }

  lemma TraceCons<I, V>(run: RunResult<I, V>, runs: seq<RunResult<I, V>>)
    ensures Trace([run] + runs) == run.attempts + Trace(runs)
  {
    assert ([run] + runs)[1..] == runs;
  }

  /** Dispatch makes one first call per stored invocable it reaches, in
      insertion order. */
  lemma {:induction false} DispatchFirstCalls<K, I, V>(b: Behaviour<I, V>, s: Entries<K, I>, args: Args<V>)
    ensures FirstAttempts(Trace(Dispatch(b, s, args).runs)) == Invocables(s[..|Dispatch(b, s, args).runs|])
    decreases |s|, 1
  {
    if s != [] {
      DispatchStep(b, s, args);
      var first := EmitRun(b, s[0].invocable, args);
      RunHasOneFirstAttempt(b, s[0].invocable, args);
      if Stops(first.outcome) {
        TraceCons(first, []);
        assert first.attempts + [] == first.attempts;
        InvocablesCons(s[0], []);
        assert s[..1] == [s[0]] + [];
      } else {
        DispatchFirstCallsStep(b, s, args);
      }
    }
  }

  lemma {:induction false} DispatchFirstCallsStep<K, I, V>(b: Behaviour<I, V>, s: Entries<K, I>, args: Args<V>)
    requires s != [] && !Stops(EmitRun(b, s[0].invocable, args).outcome)
    ensures FirstAttempts(Trace(Dispatch(b, s, args).runs)) == Invocables(s[..|Dispatch(b, s, args).runs|])
    decreases |s|, 0
  {
    DispatchStep(b, s, args);
    var first := EmitRun(b, s[0].invocable, args);
    var rest := Dispatch(b, s[1..], args).runs;
    var m := |rest|;
    DispatchFirstCalls(b, s[1..], args);
    RunHasOneFirstAttempt(b, s[0].invocable, args);
    TraceCons(first, rest);
    FirstAttemptsAppend(first.attempts, Trace(rest));
    InvocablesCons(s[0], s[1..][..m]);
    assert s[..m + 1] == [s[0]] + s[1..][..m];
  }

  /** Every first call carries the emitted arguments; every retry carries
      none. */
  lemma {:induction false} DispatchCallArgs<K, I, V>(b: Behaviour<I, V>, s: Entries<K, I>, args: Args<V>)
    ensures forall a | a in Trace(Dispatch(b, s, args).runs) ::
      a.args == if a.retry then NoArgs() else args
  {
    if s != [] {
      DispatchStep(b, s, args);
      var first := EmitRun(b, s[0].invocable, args);
      var rest := if Stops(first.outcome) then [] else Dispatch(b, s[1..], args).runs;
      if !Stops(first.outcome) {
        DispatchCallArgs(b, s[1..], args);
      }
      TraceCons(first, rest);
      forall a | a in first.attempts + Trace(rest) ensures a.args == if a.retry then NoArgs() else args {
        if a in first.attempts {
          var j :| 0 <= j < |first.attempts| && first.attempts[j] == a;
        }
      }
    }
  }

  /** Every call dispatch makes, first call or retry, is to an invocable
      stored in the collection. */
  lemma {:induction false} DispatchCallsStored<K, I, V>(b: Behaviour<I, V>, s: Entries<K, I>, args: Args<V>)
    ensures forall a | a in Trace(Dispatch(b, s, args).runs) :: a.invocable in Invocables(s)
  {
    if s != [] {
      DispatchStep(b, s, args);
      var first := EmitRun(b, s[0].invocable, args);
      var rest := if Stops(first.outcome) then [] else Dispatch(b, s[1..], args).runs;
      if !Stops(first.outcome) {
        DispatchCallsStored(b, s[1..], args);
      }
      TraceCons(first, rest);
      InvocablesCons(s[0], s[1..]);
      assert [s[0]] + s[1..] == s;
      forall a | a in first.attempts + Trace(rest) ensures a.invocable in Invocables(s) {
        if a in first.attempts {
          var j :| 0 <= j < |first.attempts| && first.attempts[j] == a;
          assert a.invocable == s[0].invocable;
        }
      }
    }
  }

  /** Dispatch makes one first call per stored invocable it reaches, in
      insertion order, with the emitted arguments; every other call is a
      no-argument retry. */
  lemma DispatchTrace<K, I, V>(b: Behaviour<I, V>, s: Entries<K, I>, args: Args<V>)
    ensures FirstAttempts(Trace(Dispatch(b, s, args).runs)) == Invocables(s[..|Dispatch(b, s, args).runs|])
    ensures forall a | a in Trace(Dispatch(b, s, args).runs) ::
      a.args == if a.retry then NoArgs() else args
  {
    DispatchFirstCalls(b, s, args);
    DispatchCallArgs(b, s, args);
  }
}

=== FILE: event_emitter.dfy ===
/** `EventEmitter`: the public facade over the registry. Listeners are
    registered under their own identity; `on` stores the function itself as
    the invocable and `once` stores a wrapper around it. */
module EventEmitter {
  import opened Listeners
  import opened Invocation
  import opened BaseEmitter

  /** The invocable stored for a listener function `f`: `f` itself (`on`) or
      the wrapper `f2` that `once` builds around `f`. */
  datatype Handler<F> = Plain(f: F) | OnceWrapper(target: F) {
    /** The listener function this invocable runs. */
    function Target(): F {
      match this
      case Plain(f) => f
      case OnceWrapper(f) => f
    }
  }

  type Emitter<E, F> = Registry<E, F, Handler<F>>

  /** What `on` and `once` keep true: keys are distinct and every record is
      stored under the listener function its invocable runs. */
  ghost predicate WellFormed<E, F>(em: Emitter<E, F>) {
    && Valid(em)
    && forall e, i | e in em && 0 <= i < |em[e]| :: em[e][i].invocable.Target() == em[e][i].key
  }

  /** `EventEmitter()`. */
  function New<E(!new), F(==,!new)>(): (em: Emitter<E, F>)
    ensures WellFormed(em)
    ensures forall e :: ListenersCount(em, e) == 0
  {
    Empty()
  }

  /** The shared registration step of `on` and `once`. */
  lemma AddKeepsWellFormed<E(!new), F(!new)>(em: Emitter<E, F>, e: E, f: F, h: Handler<F>)
    requires h.Target() == f
    ensures WellFormed(em) ==> WellFormed(AddHandler(em, e, f, h))
  {
    if !WellFormed(em) { return; }
    var r: Emitter<E, F> := AddHandler(em, e, f, h);
    var s := Lookup(em, e);
    forall e': E, i: int | e' in r && 0 <= i < |r[e']| ensures r[e'][i].invocable.Target() == r[e'][i].key {
      if e' == e {
        if f in Keys(s) {
          if i != IndexOf(s, f) {
            assert r[e][i] == s[i];
          }
        } else if i < |s| {
          assert r[e][i] == s[i];
        }
      } else {
        assert r[e'] == Lookup(em, e');
      }
    }
  }

  /** `on(event, f)`: registers `f` under key `f`, invoking `f` itself. */
  function On<E(!new), F(==,!new)>(em: Emitter<E, F>, e: E, f: F): (r: Emitter<E, F>)
    ensures WellFormed(em) ==> WellFormed(r)
    ensures Get(Lookup(r, e), f) == Some(Plain(f))
    ensures f !in Keys(Lookup(em, e)) ==> Lookup(r, e) == Lookup(em, e) + [Listener(f, Plain(f))]
    ensures f in Keys(Lookup(em, e)) ==> Keys(Lookup(r, e)) == Keys(Lookup(em, e))
    ensures forall e' :: e' != e ==> Lookup(r, e') == Lookup(em, e')
  {
    AddKeepsWellFormed(em, e, f, Plain(f));
    AddHandler(em, e, f, Plain(f))
  }

  /** `once(event, f)`, its registration part: the record is stored under the
      original `f`, so `f` is also the identity that removes it, while the
      invocable is the wrapper. */
  function Once<E(!new), F(==,!new)>(em: Emitter<E, F>, e: E, f: F): (r: Emitter<E, F>)
    ensures WellFormed(em) ==> WellFormed(r)
    ensures Get(Lookup(r, e), f) == Some(OnceWrapper(f))
    ensures f !in Keys(Lookup(em, e)) ==> Lookup(r, e) == Lookup(em, e) + [Listener(f, OnceWrapper(f))]
    ensures f in Keys(Lookup(em, e)) ==> Keys(Lookup(r, e)) == Keys(Lookup(em, e))
    ensures forall e' :: e' != e ==> Lookup(r, e') == Lookup(em, e')
  {
    AddKeepsWellFormed(em, e, f, OnceWrapper(f));
    AddHandler(em, e, f, OnceWrapper(f))
  }

  /** What the wrapper `f2` that `once` builds does when dispatch calls it:
      it runs `f` through `_emit_run` with its own arguments and, if that
      returns, calls `remove_listener`. Dispatch already holds the emitter's
      non-reentrant lock, so that call waits forever. */
  function OnceWrapperBody<F, V>(b: Behaviour<F, V>, f: F, a: Args<V>): (o: Outcome)
    ensures o != Returned
    ensures EmitRun(b, f, a).outcome != Returned ==> o == EmitRun(b, f, a).outcome
    ensures EmitRun(b, f, a).outcome == Returned ==> o == Blocked
  {
    var inner := EmitRun(b, f, a).outcome;
    if inner == Returned then Blocked else inner
  }

  /** How the stored invocables behave, given how the listener functions
      behave: `f` itself for `on`; for `once`, the wrapper, whose
      `*args, **kwargs` signature binds any arguments. */
  function Stored<F, V>(b: Behaviour<F, V>): Behaviour<Handler<F>, V> {
    Behaviour(
      (h: Handler<F>, a: Args<V>) => h.OnceWrapper? || b.accepts(h.f, a),
      (h: Handler<F>, a: Args<V>) => if h.Plain? then b.body(h.f, a) else OnceWrapperBody(b, h.target, a))
  }

  /** `emit(event, *args, **kwargs)`: dispatch of the event's stored
      invocables; the returned flag is `r.end.handled`. */
  function Emit<E(!new), F(==,!new), V>(b: Behaviour<F, V>, em: Emitter<E, F>, e: E, args: Args<V>): (r: DispatchResult<Handler<F>, V>)
    ensures r.end.Returns? ==> (r.end.handled <==> ListenersCount(em, e) > 0)
    ensures e !in em ==> r == DispatchResult([], Returns(false))
    ensures r.end.Returns? <==>
      forall i :: 0 <= i < |Lookup(em, e)| ==> !Stops(EmitRun(Stored(b), Lookup(em, e)[i].invocable, args).outcome)
    ensures |r.runs| <= |Lookup(em, e)|
    ensures FirstAttempts(Trace(r.runs)) == Invocables(Lookup(em, e)[..|r.runs|])
    ensures r.end.Returns? ==> FirstAttempts(Trace(r.runs)) == Invocables(Lookup(em, e))
  {
    CallHandlers(Stored(b), em, e, args)
  }

  /** `remove_listener(event, listener)`. */
  function RemoveListener<E(!new), F(==,!new)>(em: Emitter<E, F>, e: E, f: F): (r: Result<Emitter<E, F>>)
    ensures r.Err? <==> f !in Keys(Lookup(em, e))
    ensures r.Ok? && WellFormed(em) ==>
      && WellFormed(r.value)
      && f !in Keys(Lookup(r.value, e))
      && ListenersCount(r.value, e) == ListenersCount(em, e) - 1
    ensures r.Ok? ==> forall e' :: e' != e ==> Lookup(r.value, e') == Lookup(em, e')
  {
    RemoveKeepsWellFormed(em, e, f);
    BaseEmitter.RemoveListener(em, e, f)
  }

  /** Removal keeps every remaining record as it was. */
  lemma RemoveKeepsWellFormed<E(!new), F(!new)>(em: Emitter<E, F>, e: E, f: F)
    ensures var r := BaseEmitter.RemoveListener(em, e, f);
      r.Ok? && WellFormed(em) ==> WellFormed(r.value)
  {
    var r := BaseEmitter.RemoveListener(em, e, f);
    if r.Ok? && WellFormed(em) {
      var s := Lookup(em, e);
      var i := IndexOf(s, f);
      assert r.value[e] == s[..i] + s[i + 1..];
      forall e': E, j: int | e' in r.value && 0 <= j < |r.value[e']|
        ensures r.value[e'][j].invocable.Target() == r.value[e'][j].key
      {
        if e' == e {
          var j' := if j < i then j else j + 1;
          RemoveAtIndex(s, i, j');
          assert r.value[e][j] == s[j'];
        } else {
          assert r.value[e'] == Lookup(em, e');
        }
      }
    }
  }

  /** `remove_listeners(event)`. */
  function RemoveListeners<E(!new), F(==,!new)>(em: Emitter<E, F>, e: E): (r: Emitter<E, F>)
    ensures WellFormed(em) ==> WellFormed(r)
    ensures ListenersCount(r, e) == 0
    ensures forall e' :: e' != e ==> Lookup(r, e') == Lookup(em, e')
  {
    BaseEmitter.RemoveListeners(em, e)
  }

  /** An `on` listener runs as its function does: the same calls, made on
      the stored `Plain(f)`, and the same outcome. */
  lemma PlainRunsAsItsFunction<F, V>(b: Behaviour<F, V>, f: F, args: Args<V>)
    ensures var p := EmitRun(Stored(b), Plain(f), args); var q := EmitRun(b, f, args);
      && p.outcome == q.outcome
      && |p.attempts| == |q.attempts|
      && forall i :: 0 <= i < |q.attempts| ==>
           p.attempts[i] == Attempt(Plain(f), q.attempts[i].args, q.attempts[i].retry)
  {
    var p := EmitRun(Stored(b), Plain(f), args);
    assert Stored(b).accepts(Plain(f), args) == b.accepts(f, args);
    assert Stored(b).body(Plain(f), args) == b.body(f, args);
    assert Stored(b).accepts(Plain(f), NoArgs()) == b.accepts(f, NoArgs());
    assert Stored(b).body(Plain(f), NoArgs()) == b.body(f, NoArgs());
  }

  /** A `once` wrapper run by dispatch never returns: if `f` returns, the
      wrapper blocks on the lock; if `f` raises, the wrapper raises the same.
      A TypeError out of `f`'s run makes dispatch call the wrapper again
      without arguments, which runs `f` once more. */
  lemma OnceWrapperRun<F, V>(b: Behaviour<F, V>, f: F, args: Args<V>)
    ensures EmitRun(Stored(b), OnceWrapper(f), args).outcome != Returned
    ensures var o := EmitRun(b, f, args).outcome;
      EmitRun(Stored(b), OnceWrapper(f), args).outcome ==
        if o == Returned then Blocked
        else if o == Raised(TypeError) then OnceWrapperBody(b, f, NoArgs())
        else o
    ensures |EmitRun(Stored(b), OnceWrapper(f), args).attempts| == 2 <==> EmitRun(b, f, args).outcome == Raised(TypeError)
  {
    assert Stored(b).accepts(OnceWrapper(f), args);
    assert Stored(b).accepts(OnceWrapper(f), NoArgs());
    assert Stored(b).body(OnceWrapper(f), args) == OnceWrapperBody(b, f, args);
    assert Stored(b).body(OnceWrapper(f), NoArgs()) == OnceWrapperBody(b, f, NoArgs());
  }

  /** `emit` of an event whose `once` listener's function returns never
      completes, provided the listeners before it let dispatch reach it. */
  lemma OnceEmitHangs<E(!new), F(!new), V>(b: Behaviour<F, V>, em: Emitter<E, F>, e: E, f: F, args: Args<V>)
    requires f !in Keys(Lookup(em, e))
    requires forall i :: 0 <= i < |Lookup(em, e)| ==> !Stops(EmitRun(Stored(b), Lookup(em, e)[i].invocable, args).outcome)
    requires EmitRun(b, f, args).outcome == Returned
    ensures |Emit(b, Once(em, e, f), e, args).runs| == |Lookup(em, e)| + 1
    ensures Emit(b, Once(em, e, f), e, args).end == Hangs
  {
    var s := Lookup(em, e);
    assert Lookup(Once(em, e, f), e) == s + [Listener(f, OnceWrapper(f))];
    OnceWrapperRun(b, f, args);
    DispatchStopsAtLast(Stored(b), s, Listener(f, OnceWrapper(f)), args);
  }

  /** A listener registered with `on` on an event without listeners is run
      exactly once by the next emit, as its function runs; unless that run
      stops dispatch, the emit returns true. */
  lemma OnThenEmit<E(!new), F(!new), V>(b: Behaviour<F, V>, em: Emitter<E, F>, e: E, f: F, args: Args<V>)
    requires Lookup(em, e) == []
    ensures Emit(b, On(em, e, f), e, args).runs == [EmitRun(Stored(b), Plain(f), args)]
    ensures Emit(b, On(em, e, f), e, args).runs[0].outcome == EmitRun(b, f, args).outcome
    ensures !Stops(EmitRun(b, f, args).outcome) ==> Emit(b, On(em, e, f), e, args).end == Returns(true)
  {
    PlainRunsAsItsFunction(b, f, args);
    var s := Lookup(On(em, e, f), e);
    assert s == [Listener(f, Plain(f))];
    assert s[1..] == [];
  }

  /** One new listener registered with `on` is appended. */
  lemma OnNewAppends<E(!new), F(!new)>(em: Emitter<E, F>, e: E, f: F)
    requires f !in Keys(Lookup(em, e))
    ensures Lookup(On(em, e, f), e) == Lookup(em, e) + [Listener(f, Plain(f))]
  {
  }

  /** Two new listeners registered with `on` in turn are appended, in
      that order. */
  lemma OnTwiceAppends<E(!new), F(!new)>(em: Emitter<E, F>, e: E, f1: F, f2: F)
    requires f1 != f2 && f1 !in Keys(Lookup(em, e)) && f2 !in Keys(Lookup(em, e))
    ensures Invocables(Lookup(On(On(em, e, f1), e, f2), e)) == Invocables(Lookup(em, e)) + [Plain(f1), Plain(f2)]
  {
    var x, y := Listener(f1, Plain(f1)), Listener(f2, Plain(f2));
    OnNewAppends(em, e, f1);
    SnocKeepsAbsent(Lookup(em, e), x, f2);
    OnNewAppends(On(em, e, f1), e, f2);
    InvocablesSnocSnoc(Lookup(em, e), x, y);
  }

  /** Whatever the event's invocables are, emit calls them first in that
      order, as far as dispatch gets. */
  lemma EmitCallsInOrder<E(!new), F(!new), V>(b: Behaviour<F, V>, em: Emitter<E, F>, e: E, args: Args<V>, hs: seq<Handler<F>>)
    requires Invocables(Lookup(em, e)) == hs
    ensures |Emit(b, em, e, args).runs| <= |hs|
    ensures FirstAttempts(Trace(Emit(b, em, e, args).runs)) == hs[..|Emit(b, em, e, args).runs|]
    ensures Emit(b, em, e, args).end.Returns? ==> FirstAttempts(Trace(Emit(b, em, e, args).runs)) == hs
  {
    var s := Lookup(em, e);
    InvocablesPrefix(s, |Emit(b, em, e, args).runs|);
  }

  /** Two new listeners registered in turn run after the event's existing
      listeners, in registration order, as far as dispatch gets. */
  lemma EmitInRegistrationOrder<E(!new), F(!new), V>(b: Behaviour<F, V>, em: Emitter<E, F>, e: E, f1: F, f2: F, args: Args<V>)
    requires f1 != f2 && f1 !in Keys(Lookup(em, e)) && f2 !in Keys(Lookup(em, e))
    ensures var r := Emit(b, On(On(em, e, f1), e, f2), e, args);
      FirstAttempts(Trace(r.runs)) == (Invocables(Lookup(em, e)) + [Plain(f1), Plain(f2)])[..|r.runs|]
    ensures var r := Emit(b, On(On(em, e, f1), e, f2), e, args);
      r.end.Returns? ==> FirstAttempts(Trace(r.runs)) == Invocables(Lookup(em, e)) + [Plain(f1), Plain(f2)]
  {
    OnTwiceAppends(em, e, f1, f2);
    EmitCallsInOrder(b, On(On(em, e, f1), e, f2), e, args, Invocables(Lookup(em, e)) + [Plain(f1), Plain(f2)]);
  }

  /** A listener taking no parameters, registered with `on` after the
      event's other listeners and emitted with arguments, is reached when
      those listeners let dispatch go on; it is called with the arguments,
      called again without them, and its body's outcome ends its run. On an
      event without other listeners, those two calls are the whole trace. */
  lemma ZeroParameterListener<E(!new), F(!new), V>(b: Behaviour<F, V>, em: Emitter<E, F>, e: E, f: F, args: Args<V>)
    requires f !in Keys(Lookup(em, e))
    requires forall i :: 0 <= i < |Lookup(em, e)| ==> !Stops(EmitRun(Stored(b), Lookup(em, e)[i].invocable, args).outcome)
    requires !b.accepts(f, args) && b.accepts(f, NoArgs())
    ensures |Emit(b, On(em, e, f), e, args).runs| == |Lookup(em, e)| + 1
    ensures Emit(b, On(em, e, f), e, args).runs[|Lookup(em, e)|].attempts
      == [Attempt(Plain(f), args, false), Attempt(Plain(f), NoArgs(), true)]
    ensures Emit(b, On(em, e, f), e, args).runs[|Lookup(em, e)|].outcome == b.body(f, NoArgs())
    ensures Lookup(em, e) == [] ==>
      Trace(Emit(b, On(em, e, f), e, args).runs) == [Attempt(Plain(f), args, false), Attempt(Plain(f), NoArgs(), true)]
  {
    var s := Lookup(em, e);
    var x := Listener(f, Plain(f));
    OnNewAppends(em, e, f);
    assert Emit(b, On(em, e, f), e, args) == Dispatch(Stored(b), s + [x], args);
    DispatchReachesLast(Stored(b), s, x, args);
    ArityFallback(b, f, args);
    PlainRunsAsItsFunction(b, f, args);
    var runs := Emit(b, On(em, e, f), e, args).runs;
    var w := EmitRun(Stored(b), Plain(f), args);
    assert runs[|s|] == w;
    assert w.attempts == [Attempt(Plain(f), args, false), Attempt(Plain(f), NoArgs(), true)];
    if s == [] {
      assert runs == [w];
      TraceCons(w, []);
      assert w.attempts + [] == w.attempts;
    }
  }

  /** Registering a new listener and removing it again restores the emitter. */
  lemma OnThenRemoveListener<E(!new), F(!new)>(em: Emitter<E, F>, e: E, f: F)
    requires f !in Keys(Lookup(em, e))
    ensures RemoveListener(On(em, e, f), e, f).Ok?
    ensures Lookup(RemoveListener(On(em, e, f), e, f).value, e) == Lookup(em, e)
  {
    PutNewThenPop(Lookup(em, e), f, Plain(f));
  }

  /** Every call an emit makes, first call or retry, is to an invocable
      stored for the event. */
  lemma EmitCallsStored<E(!new), F(!new), V>(b: Behaviour<F, V>, em: Emitter<E, F>, e: E, args: Args<V>)
    ensures forall a | a in Trace(Emit(b, em, e, args).runs) :: a.invocable in Invocables(Lookup(em, e))
  {
    assert Emit(b, em, e, args) == Dispatch(Stored(b), Lookup(em, e), args);
    DispatchCallsStored(Stored(b), Lookup(em, e), args);
  }

  /** No invocable stored under another key runs `f`, in a well-formed
      collection from which `f` is absent. */
  lemma AbsentKeyNotRun<F>(s: Entries<F, Handler<F>>, n: nat, f: F)
    requires n <= |s| && f !in Keys(s)
    requires forall i :: 0 <= i < |s| ==> s[i].invocable.Target() == s[i].key
    ensures forall h | h in Invocables(s[..n]) :: h.Target() != f
  {
    InvocablesPrefix(s, n);
    assert forall i :: 0 <= i < n ==> Invocables(s)[i].Target() == Keys(s)[i];
  }

  /** After `remove_listener(event, f)` the next emit of that event runs
      neither `f` nor a `once` wrapper of `f`. */
  lemma RemovedListenerIsNotRun<E(!new), F(!new), V>(b: Behaviour<F, V>, em: Emitter<E, F>, e: E, f: F, args: Args<V>)
    requires WellFormed(em) && RemoveListener(em, e, f).Ok?
    ensures forall h | h in FirstAttempts(Trace(Emit(b, RemoveListener(em, e, f).value, e, args).runs)) :: h.Target() != f
    ensures forall a | a in Trace(Emit(b, RemoveListener(em, e, f).value, e, args).runs) :: a.invocable.Target() != f
  {
    var em' := RemoveListener(em, e, f).value;
    var s := Lookup(em', e);
    forall i | 0 <= i < |s| ensures s[i].invocable.Target() == s[i].key {
      if e in em' {
        assert s[i] == em'[e][i];
      }
    }
    AbsentKeyNotRun(s, |Emit(b, em', e, args).runs|, f);
    AbsentKeyNotRun(s, |s|, f);
    assert s[..|s|] == s;
    EmitCallsStored(b, em', e, args);
  }
}

=== FILE: invocation.dfy ===
/** How the emitter calls one listener (`BaseEventEmitter._emit_run`):
    with the emitted arguments first and, when that call raises TypeError,
    once more with no arguments at all. */
module Invocation {

  /** The positional and keyword arguments of one call (`*args`, `**kwargs`). */
  datatype Args<V> = Args(positional: seq<V>, named: map<string, V>)

  /** The empty argument list of the fallback call `f()`. */
  function NoArgs<V>(): Args<V> {
    Args([], map[])
  }

  /** What a call can raise. `TypeError` and `OtherException` are
      subclasses of Python's `Exception`; `Interrupt` stands for the
      `BaseException` subclasses outside it (`SystemExit`,
      `KeyboardInterrupt`, `GeneratorExit`), which `except Exception` does
      not catch. */
  datatype Raisable = TypeError | OtherException | Interrupt

  /** How one call ends: it returns, it raises, or it never ends because the
      listener called back into the emitter and waits for the lock that
      dispatch already holds (`threading.Lock` is not reentrant). */
  datatype Outcome = Returned | Raised(exc: Raisable) | Blocked

  /** The outcomes the dispatch loop does not survive: the `except Exception`
      around each listener lets an `Interrupt` through, and a blocked call
      never gives control back. */
  predicate Stops(o: Outcome) {
    o == Blocked || o == Raised(Interrupt)
  }

  /** What the model knows of a Python callable `f`: whether its signature
      binds the given arguments, and how its body ends when it runs with
      them. Both are opaque parameters; a listener's side effects other than
      re-entering the emitter (`Blocked`) are not modelled. */
  datatype Behaviour<!I, !V> = Behaviour(accepts: (I, Args<V>) -> bool, body: (I, Args<V>) -> Outcome)

  /** `f(*args, **kwargs)`: a call whose arguments do not bind raises
      TypeError before the body runs. */
  function Call<I, V>(b: Behaviour<I, V>, f: I, a: Args<V>): (o: Outcome)
    ensures b.accepts(f, a) ==> o == b.body(f, a)
    ensures !b.accepts(f, a) ==> o == Raised(TypeError)
  {
    if b.accepts(f, a) then b.body(f, a) else Raised(TypeError)
  }

  /** One call made by the emitter: which invocable, with which arguments,
      and whether it is the no-argument retry. */
  datatype Attempt<I, V> = Attempt(invocable: I, args: Args<V>, retry: bool)

  /** The calls one `_emit_run` makes and how it ends; a `Raised` outcome is
      the exception `_emit_run` lets escape. */
  datatype RunResult<I, V> = RunResult(attempts: seq<Attempt<I, V>>, outcome: Outcome)

  /** `_emit_run(f, args, kwargs)`. */
  function EmitRun<I, V>(b: Behaviour<I, V>, f: I, args: Args<V>): (r: RunResult<I, V>)
    // the first call always uses the emitted arguments
    ensures |r.attempts| >= 1 && r.attempts[0] == Attempt(f, args, false)
    // the retry happens exactly when the first call raised TypeError, whether
    // from a signature that does not bind or from the body itself
    ensures |r.attempts| == 2 <==> (!b.accepts(f, args) || b.body(f, args) == Raised(TypeError))
    ensures |r.attempts| <= 2
    ensures |r.attempts| == 2 ==> r.attempts[1] == Attempt(f, NoArgs(), true)
    // a listener that binds and does not raise TypeError runs once with the arguments
    ensures b.accepts(f, args) && b.body(f, args) != Raised(TypeError) ==> r.outcome == b.body(f, args)
    // the retry's outcome, whatever it is, is the outcome of the whole run
    ensures |r.attempts| == 2 ==> r.outcome == Call(b, f, NoArgs())
    // only a body that runs can block
    ensures r.outcome == Blocked ==> exists a :: a in {args, NoArgs()} && b.accepts(f, a) && b.body(f, a) == Blocked
  {
    var first := Call(b, f, args);
    if first == Raised(TypeError) then
      RunResult([Attempt(f, args, false), Attempt(f, NoArgs(), true)], Call(b, f, NoArgs()))
    else
      RunResult([Attempt(f, args, false)], first)
  }

  /** A listener that takes no parameters, emitted with arguments, still
      runs its body, with no arguments. */
  lemma ArityFallback<I, V>(b: Behaviour<I, V>, f: I, args: Args<V>)
    requires !b.accepts(f, args) && b.accepts(f, NoArgs())
    ensures EmitRun(b, f, args).attempts == [Attempt(f, args, false), Attempt(f, NoArgs(), true)]
    ensures EmitRun(b, f, args).outcome == b.body(f, NoArgs())
  {
  }

  /** The run succeeds exactly when the call with the emitted arguments
      returns, or that call raises TypeError and the call without arguments
      returns. */
  lemma EmitRunReturns<I, V>(b: Behaviour<I, V>, f: I, args: Args<V>)
    ensures EmitRun(b, f, args).outcome == Returned <==>
      || (b.accepts(f, args) && b.body(f, args) == Returned)
      || ((!b.accepts(f, args) || b.body(f, args) == Raised(TypeError))
          && b.accepts(f, NoArgs()) && b.body(f, NoArgs()) == Returned)
  {
  }
}

=== FILE: listeners.dfy ===
/** The per-event listener collection of the emitter: a Python `dict` from
    registration key to invocable, which keeps its keys in insertion order.
    It is modelled as a sequence of key/invocable records with distinct keys;
    the sequence order is the dictionary's iteration order. */
module Listeners {

  datatype Option<T> = None | Some(value: T)

  /** One registration: the identity the caller registered (the dictionary
      key) and the callable that dispatch invokes (the dictionary value).
      For `on` the two are the same function; for `once` they differ. */
  datatype Listener<K, I> = Listener(key: K, invocable: I)

  /** The keys in iteration order. */
  function Keys<K, I>(s: seq<Listener<K, I>>): (ks: seq<K>)
    ensures |ks| == |s|
    ensures forall i {:trigger ks[i]} :: 0 <= i < |s| ==> ks[i] == s[i].key
  {
    if s == [] then [] else [s[0].key] + Keys(s[1..])
  }

  /** The invocables in iteration order (`dict.values()`). */
  function Invocables<K, I>(s: seq<Listener<K, I>>): (vs: seq<I>)
    ensures |vs| == |s|
    ensures forall i {:trigger vs[i]} :: 0 <= i < |s| ==> vs[i] == s[i].invocable
  {
    if s == [] then [] else [s[0].invocable] + Invocables(s[1..])
  }

  /** The invocables of a concatenation are the two lists of invocables
      concatenated. */
  lemma {:induction false} InvocablesAppend<K, I>(s: seq<Listener<K, I>>, t: seq<Listener<K, I>>)
    ensures Invocables(s + t) == Invocables(s) + Invocables(t)
  {
    if s == [] {
      assert s + t == t;
    } else {
      assert (s + t)[1..] == s[1..] + t;
      InvocablesAppend(s[1..], t);
    }
  }

  lemma {:induction false} KeysAppend<K, I>(s: seq<Listener<K, I>>, t: seq<Listener<K, I>>)
    ensures Keys(s + t) == Keys(s) + Keys(t)
  {
    if s == [] {
      assert s + t == t;
    } else {
      assert (s + t)[1..] == s[1..] + t;
      KeysAppend(s[1..], t);
    }
  }

  /** A key that is neither in `s` nor the appended record's key is not in
      the extended sequence. */
  lemma SnocKeepsAbsent<K, I>(s: seq<Listener<K, I>>, x: Listener<K, I>, k: K)
    requires k !in Keys(s) && k != x.key
    ensures k !in Keys(s + [x])
  {
    KeysAppend(s, [x]);
    assert Keys([x]) == [x.key];
  }

  /** Appending two records one after the other appends their invocables,
      in that order. */
  lemma InvocablesSnocSnoc<K, I>(s: seq<Listener<K, I>>, x: Listener<K, I>, y: Listener<K, I>)
    ensures Invocables((s + [x]) + [y]) == Invocables(s) + [x.invocable, y.invocable]
  {
    assert (s + [x]) + [y] == s + [x, y];
    InvocablesAppend(s, [x, y]);
    assert Invocables([x, y]) == [x.invocable, y.invocable];
  }

  /** The invocables of the first `n` records are the first `n` invocables. */
  lemma {:induction false} InvocablesPrefix<K, I>(s: seq<Listener<K, I>>, n: nat)
    requires n <= |s|
    ensures Invocables(s[..n]) == Invocables(s)[..n]
  {
    if n > 0 {
      assert s[..n][1..] == s[1..][..n - 1];
      InvocablesPrefix(s[1..], n - 1);
    }
  }

  /** No element occurs twice. */
  ghost predicate Distinct<T>(xs: seq<T>) {
    |xs| == 0 || (xs[0] !in xs[1..] && Distinct(xs[1..]))
  }

  /** In a distinct sequence, elements at different positions differ. */
  lemma {:induction false} DistinctIndex<T>(xs: seq<T>, i: nat, j: nat)
    requires Distinct(xs) && i < j < |xs|
    ensures xs[i] != xs[j]
  {
    if i == 0 {
      assert xs[j] == xs[1..][j - 1];
    } else {
      DistinctIndex(xs[1..], i - 1, j - 1);
    }
  }

  lemma AppendAssoc<T>(a: seq<T>, b: seq<T>, c: seq<T>)
    ensures a + (b + c) == (a + b) + c
  {
  }

  /** A sequence with a new head is distinct exactly when the head does not
      occur in the distinct tail. */
  lemma DistinctCons<T>(a: T, xs: seq<T>)
    ensures Distinct([a] + xs) <==> a !in xs && Distinct(xs)
  {
    assert ([a] + xs)[1..] == xs;
  }

  /** Appending a new element keeps a sequence distinct. */
  lemma {:induction false} DistinctSnoc<T>(xs: seq<T>, a: T)
    ensures a !in xs && Distinct(xs) ==> Distinct(xs + [a])
  {
    if xs != [] && a !in xs && Distinct(xs) {
      assert (xs + [a])[1..] == xs[1..] + [a];
      DistinctSnoc(xs[1..], a);
      assert xs[0] != a;
    }
  }

  /** Removing the element at `i` from a distinct sequence keeps it
      distinct, and the removed element no longer occurs. */
  lemma {:induction false} DistinctRemoveAt<T>(xs: seq<T>, i: nat)
    requires i < |xs|
    ensures Distinct(xs) ==> Distinct(xs[..i] + xs[i + 1..]) && xs[i] !in xs[..i] + xs[i + 1..]
  {
    if Distinct(xs) {
      var t := xs[1..];
      if i == 0 {
        assert xs[..0] + xs[1..] == t;
      } else {
        DistinctRemoveAt(t, i - 1);
        var r := t[..i - 1] + t[i..];
        ConsRemoveAt(xs, i - 1);
        assert xs[..i] + xs[i + 1..] == [xs[0]] + r;
        assert xs[0] !in r by {
          forall x | x in r ensures x in t {
            if x in t[..i - 1] {
              var j :| 0 <= j < i - 1 && t[..i - 1][j] == x;
              assert t[j] == x;
            } else {
              var j :| 0 <= j < |t[i..]| && t[i..][j] == x;
              assert t[i + j] == x;
            }
          }
        }
        DistinctCons(xs[0], r);
        assert xs[i] == t[i - 1];
        assert xs[i] != xs[0] by {
          assert xs[i] == t[i - 1];
        }
      }
    }
  }

  lemma KeysCons<K, I>(x: Listener<K, I>, s: seq<Listener<K, I>>)
    ensures Keys([x] + s) == [x.key] + Keys(s)
  {
    assert ([x] + s)[1..] == s;
  }

  lemma InvocablesCons<K, I>(x: Listener<K, I>, s: seq<Listener<K, I>>)
    ensures Invocables([x] + s) == [x.invocable] + Invocables(s)
  {
    assert ([x] + s)[1..] == s;
  }

  /** The representation invariant: no key is stored twice. */
  ghost predicate UniqueKeys<K, I>(s: seq<Listener<K, I>>) {
    Distinct(Keys(s))
  }

  /** The set of distinct keys. */
  ghost function KeySet<K, I>(s: seq<Listener<K, I>>): set<K> {
    set k | k in Keys(s)
  }

  /** Position of the first record stored under `k`. */
  function IndexOf<K(==), I>(s: seq<Listener<K, I>>, k: K): (i: nat)
    requires k in Keys(s)
    ensures i < |s| && s[i].key == k
    ensures forall j :: 0 <= j < i ==> s[j].key != k
  {
    if s[0].key == k then 0 else 1 + IndexOf(s[1..], k)
  }

  /** `d.get(k)`: the invocable stored under `k`, if any. */
  function Get<K(==), I>(s: seq<Listener<K, I>>, k: K): (r: Option<I>)
    ensures r.None? <==> k !in Keys(s)
    ensures r.Some? ==> r.value == s[IndexOf(s, k)].invocable
  {
    if s == [] then None
    else if s[0].key == k then Some(s[0].invocable)
    else Get(s[1..], k)
  }

  /** `d[k] = v`: a new key goes at the end; an existing key keeps its
      position and only its invocable is replaced. */
  function Put<K(==), I>(s: seq<Listener<K, I>>, k: K, v: I): (r: seq<Listener<K, I>>)
    ensures k !in Keys(s) ==> r == s + [Listener(k, v)]
    ensures k in Keys(s) ==> |r| == |s| && r[IndexOf(s, k)] == Listener(k, v)
    ensures k in Keys(s) ==> forall j {:trigger r[j]} :: 0 <= j < |s| && j != IndexOf(s, k) ==> r[j] == s[j]
    ensures Keys(r) == if k in Keys(s) then Keys(s) else Keys(s) + [k]
    ensures UniqueKeys(s) ==> UniqueKeys(r)
  {
    DistinctSnoc(Keys(s), k);
    if s == [] then [Listener(k, v)]
    else
      KeysCons(s[0], s[1..]);
      if s[0].key == k then
        KeysCons(Listener(k, v), s[1..]);
        [Listener(k, v)] + s[1..]
      else
        var r := Put(s[1..], k, v);
        KeysCons(s[0], r);
        if k in Keys(s) then
          IndexOfTail(s, k);
          [s[0]] + r
        else
          AppendAssoc([s[0].key], Keys(s[1..]), [k]);
          AppendAssoc([s[0]], s[1..], [Listener(k, v)]);
          assert [s[0]] + s[1..] == s;
          [s[0]] + r
  }

  /** `d.pop(k)`: the invocable stored under `k` and the collection without
      that record, or None where Python raises KeyError. */
  function Pop<K(==), I>(s: seq<Listener<K, I>>, k: K): (r: Option<(I, seq<Listener<K, I>>)>)
    ensures r.None? <==> k !in Keys(s)
    ensures r.Some? ==> r.value.0 == s[IndexOf(s, k)].invocable
    ensures r.Some? ==> r.value.1 == s[..IndexOf(s, k)] + s[IndexOf(s, k) + 1..]
    ensures r.Some? && UniqueKeys(s) ==> UniqueKeys(r.value.1) && k !in Keys(r.value.1)
  {
    if s == [] then None
    else if s[0].key == k then
      RemoveAtKeepsUnique(s, 0);
      Some((s[0].invocable, s[1..]))
    else
      var tail := Pop(s[1..], k);
      if tail.None? then None
      else
        PopCons(s, k, tail.value.1);
        RemoveAtKeepsUnique(s, IndexOf(s, k));
        Some((tail.value.0, [s[0]] + tail.value.1))
  }

  /** The recursive step of `Pop`: the head put back in front of the tail
      without `k` is the whole collection without `k`. */
  lemma PopCons<K, I>(s: seq<Listener<K, I>>, k: K, rest: seq<Listener<K, I>>)
    requires s != [] && s[0].key != k && k in Keys(s[1..])
    requires rest == s[1..][..IndexOf(s[1..], k)] + s[1..][IndexOf(s[1..], k) + 1..]
    ensures k in Keys(s) && IndexOf(s, k) == IndexOf(s[1..], k) + 1
    ensures [s[0]] + rest == s[..IndexOf(s, k)] + s[IndexOf(s, k) + 1..]
  {
    IndexOfTail(s, k);
    ConsRemoveAt(s, IndexOf(s[1..], k));
  }

  /** A key missing from the head is found one place further on than in
      the tail. */
  lemma IndexOfTail<K, I>(s: seq<Listener<K, I>>, k: K)
    requires s != [] && s[0].key != k && k in Keys(s[1..])
    ensures k in Keys(s) && IndexOf(s, k) == IndexOf(s[1..], k) + 1
  {
    var i := IndexOf(s[1..], k);
    assert Keys(s)[i + 1] == k;
  }

  /** Putting the head back in front of the tail without its `i`-th element
      removes the element at `i + 1`. */
  lemma ConsRemoveAt<T>(s: seq<T>, i: nat)
    requires i + 1 < |s|
    ensures [s[0]] + (s[1..][..i] + s[1..][i + 1..]) == s[..i + 1] + s[i + 2..]
  {
    assert s[1..][..i] == s[1..i + 1];
    assert s[1..][i + 1..] == s[i + 2..];
    assert s[..i + 1] == [s[0]] + s[1..i + 1];
  }

  /** The keys of a collection with one record removed are its keys with
      that key removed. */
  lemma KeysRemoveAt<K, I>(s: seq<Listener<K, I>>, i: nat)
    requires i < |s|
    ensures Keys(s[..i] + s[i + 1..]) == Keys(s)[..i] + Keys(s)[i + 1..]
  {
    var t := s[..i] + s[i + 1..];
    var u := Keys(s)[..i] + Keys(s)[i + 1..];
    forall a | 0 <= a < |t| ensures Keys(t)[a] == u[a] {
      if a < i {
        assert t[a] == s[a];
      } else {
        assert t[a] == s[a + 1];
      }
    }
  }

  /** Removing the record at `i` from a collection with distinct keys leaves
      distinct keys and drops the removed key entirely. */
  lemma RemoveAtKeepsUnique<K, I>(s: seq<Listener<K, I>>, i: nat)
    requires i < |s|
    ensures UniqueKeys(s) ==> UniqueKeys(s[..i] + s[i + 1..])
    ensures UniqueKeys(s) ==> s[i].key !in Keys(s[..i] + s[i + 1..])
  {
    KeysRemoveAt(s, i);
    DistinctRemoveAt(Keys(s), i);
  }

  /** `Put` behaves as a map update on the dictionary view `Get`. */
  lemma {:induction false} PutGet<K, I>(s: seq<Listener<K, I>>, k: K, v: I, k': K)
    ensures Get(Put(s, k, v), k') == if k' == k then Some(v) else Get(s, k')
  {
    var r := Put(s, k, v);
    if s == [] {
      assert r == [Listener(k, v)];
    } else if s[0].key == k {
      assert r[0] == Listener(k, v) && r[1..] == s[1..];
    } else {
      assert r[0] == s[0] && r[1..] == Put(s[1..], k, v);
      PutGet(s[1..], k, v, k');
    }
  }

  /** Re-registering a key replaces its invocable: the last registration wins. */
  lemma {:induction false} PutTwiceLastWins<K, I>(s: seq<Listener<K, I>>, k: K, v: I, w: I)
    ensures Put(Put(s, k, v), k, w) == Put(s, k, w)
  {
    if s != [] && s[0].key != k {
      PutTwiceLastWins(s[1..], k, v, w);
    }
  }

  /** With distinct keys, the record at `i` is the one `IndexOf` finds. */
  lemma IndexOfUnique<K, I>(s: seq<Listener<K, I>>, k: K, i: nat)
    requires UniqueKeys(s) && i < |s| && s[i].key == k
    ensures k in Keys(s) && IndexOf(s, k) == i
  {
    assert Keys(s)[i] == k;
    var n := IndexOf(s, k);
    if n < i {
      DistinctIndex(Keys(s), n, i);
    }
  }

  /** Inserting a new key and popping it again gives back the invocable and
      the original collection. */
  lemma PutNewThenPop<K, I>(s: seq<Listener<K, I>>, k: K, v: I)
    requires k !in Keys(s)
    ensures Pop(Put(s, k, v), k) == Some((v, s))
  {
    var t := Put(s, k, v);
    assert Keys(t)[|s|] == k;
    forall j | 0 <= j < |s| ensures t[j].key != k {
      assert Keys(s)[j] == t[j].key;
    }
    assert IndexOf(t, k) == |s|;
    assert t[..|s|] + t[|s| + 1..] == s;
    var r := Pop(t, k);
    assert r.Some?;
    assert r.value.0 == v;
    assert r.value.1 == s;
  }

  /** Where a record of `s` sits once the record at `i` is removed. */
  lemma RemoveAtIndex<K, I>(s: seq<Listener<K, I>>, i: nat, j: nat)
    requires i < |s| && j < |s| && j != i
    ensures var t := s[..i] + s[i + 1..]; (if j < i then t[j] else t[j - 1]) == s[j]
  {
    if j > i {
      assert (s[..i] + s[i + 1..])[j - 1] == s[i + 1..][j - 1 - i];
    }
  }

  /** Removing the record at `i` removes its key from the dictionary view
      and leaves every other key's invocable as it was. */
  lemma RemoveAtGet<K, I>(s: seq<Listener<K, I>>, i: nat, k': K)
    requires UniqueKeys(s) && i < |s|
    ensures Get(s[..i] + s[i + 1..], k') == if k' == s[i].key then None else Get(s, k')
  {
    RemoveAtKeepsUnique(s, i);
    if k' !in Keys(s) {
      RemoveAtKeepsAbsent(s, i, k');
    } else if k' != s[i].key {
      RemoveAtKeepsOther(s, i, k');
    }
  }

  /** A key absent from a collection is absent after a removal. */
  lemma RemoveAtKeepsAbsent<K, I>(s: seq<Listener<K, I>>, i: nat, k': K)
    requires i < |s| && k' !in Keys(s)
    ensures k' !in Keys(s[..i] + s[i + 1..])
  {
    var t := s[..i] + s[i + 1..];
    forall a | 0 <= a < |t| ensures Keys(t)[a] != k' {
      var a' := if a < i then a else a + 1;
      RemoveAtIndex(s, i, a');
      assert Keys(s)[a'] == t[a].key;
    }
  }

  /** Any other key reads the same after a removal. */
  lemma RemoveAtKeepsOther<K, I>(s: seq<Listener<K, I>>, i: nat, k': K)
    requires UniqueKeys(s) && i < |s| && k' in Keys(s) && k' != s[i].key
    ensures Get(s[..i] + s[i + 1..], k') == Get(s, k')
  {
    RemoveAtKeepsUnique(s, i);
    var t := s[..i] + s[i + 1..];
    var j := IndexOf(s, k');
    RemoveAtIndex(s, i, j);
    IndexOfUnique(t, k', if j < i then j else j - 1);
  }

  /** `Pop` removes the key from the dictionary view, hands back its
      invocable and leaves every other key's invocable as it was. */
  lemma PopGet<K, I>(s: seq<Listener<K, I>>, k: K, k': K)
    requires UniqueKeys(s) && k in Keys(s)
    ensures Pop(s, k).Some? && Some(Pop(s, k).value.0) == Get(s, k)
    ensures Get(Pop(s, k).value.1, k') == if k' == k then None else Get(s, k')
  {
    RemoveAtGet(s, IndexOf(s, k), k');
  }

  /** A popped key that is registered again goes to the end of the order,
      as Python dictionaries do. */
  lemma PopThenPutMovesToEnd<K, I>(s: seq<Listener<K, I>>, k: K, v: I)
    requires UniqueKeys(s) && k in Keys(s)
    ensures Put(Pop(s, k).value.1, k, v) == Pop(s, k).value.1 + [Listener(k, v)]
  {
  }

  /** With distinct keys, the number of records is the number of distinct
      keys (`len(d)`). */
  lemma {:induction false} CountIsDistinctKeys<K, I>(s: seq<Listener<K, I>>)
    ensures UniqueKeys(s) ==> |KeySet(s)| == |s|
  {
    if s != [] && UniqueKeys(s) {
      var t := s[1..];
      KeysCons(s[0], t);
      assert [s[0]] + t == s;
      DistinctCons(s[0].key, Keys(t));
      CountIsDistinctKeys(t);
      assert KeySet(s) == {s[0].key} + KeySet(t);
    }
  }
}
